=== FILE: README.md ===
# kubectl-fzf-get `get` command, modelled in Dafny

`kubectl-fzf-get` lists Kubernetes resources of one kind with `kubectl get`,
lets the user pick one in `fzf` (with a live `kubectl describe`/`-o yaml`
preview), and then prints the picked name or runs `kubectl` on it again. This
project models the decision and string-building logic of
`internal/command/get.go`:

- `NewGetCommand`: the resource kind must be non-empty (checked first), the
  preview format must be `describe` or `yaml` and selects one of two fixed
  preview templates, the output format is stored unchecked.
- Preview rendering: the preview template is parsed and filled with the
  resource and fzf's first-column placeholder `{1}`. The templates use only
  `{{ .key }}` actions, and `Template` models just enough of Go's
  `html/template` for them: literal text plus field references with ASCII
  keys, a parse error for an action that never closes or whose body is not a
  single field, and empty text for a key missing from the data. Values are
  inserted verbatim; contextual escaping and the escaper's execution errors are
  not modelled (see "Left out").
- The pipeline `kubectl get <resource> | fzf … --preview '<preview>' …` that is
  handed to `sh -c`.
- After the pick: the name is the first whitespace-separated column of fzf's
  trimmed output (`strings.TrimSpace`, `strings.Fields`, modelled in `Text` with
  Go's `unicode.IsSpace` set); the output format chooses between printing the
  name, running `kubectl` with a fixed argument vector, and doing nothing; each
  failure has its exit code (1 for the preview or the pipeline, 2 for the
  follow-up `kubectl`, 0 otherwise, and an error only with a non-zero code).

Processes are not run. `Get.Run` takes how the pipeline ended and how the
follow-up `kubectl` would end as parameters (`ProcResult`: its output and
whether it failed) and returns an `Outcome`: the exit code, the error, the
pipeline text, the `kubectl` arguments and what was printed — or `Panic` when
fzf printed only whitespace, where the source indexes `columns[0]` of an empty
slice.

Files: `wrappers.dfy` (Option, Result), `text.dfy` (module `Text`),
`template.dfy` (module `Template`), `get.dfy` (module `Get`).

The repository's tests (`internal/command/command_test.go`) also exercise an
environment-configurable fzf option builder (`getFzfOption`) and a template
helper (`commandFromTemplate`). Their code is not part of `get.go`, which
builds the fzf options from one fixed format string; this model follows
`get.go`.

## Model

| member | source | states |
|---|---|---|
| Get.NewGetCommand | internal/command/get.go:19-39 | an empty resource is rejected with "1st argument must be the kind of resources" whatever the formats; otherwise a preview format other than `describe`/`yaml` is rejected with "preview format must be one of [describe, yaml]"; on success the resource and output format are kept unchanged and the preview is the describe or yaml template respectively |
| Get.NewGetCommandValid | internal/command/get.go:19-39 | the constructor produces exactly the commands with a non-empty resource and one of the two preview templates, for any output format |
| Get.DescribeRenders | internal/command/get.go:42-58 | the describe template parses and renders to `kubectl describe <resource> {1}` |
| Get.YamlRenders | internal/command/get.go:43-58 | the yaml template parses and renders to `kubectl get <resource> {1} -o yaml` |
| Get.RenderPreview | internal/command/get.go:41-60 | a command built with either template renders its preview without error, to the describe or yaml command line for its resource |
| Template.Parse | internal/command/get.go:48-51 | a successful parse yields only fields with well-formed keys (the round trip is Template.ParseUnparse) |
| Template.Execute | internal/command/get.go:52-58 | a template of literal text only renders to that text; filling a field is stated by Template.RenderField and concatenation by Template.ExecuteAppend |
| Template.Render | internal/command/get.go:48-58 | rendering fails exactly when parsing fails; no partial text is produced |
| Template.ParseUnparse | internal/command/get.go:48-51 | template text made of literal text without `{` and `{{ .key }}` actions parses back to exactly those pieces |
| Template.ParseUnclosed | internal/command/get.go:48-51 | after well-formed template text, an action opened and never closed is the unclosed-action error, and nothing is rendered |
| Template.ParseUnclosedAny | internal/command/get.go:48-51 | an action opened and never closed is a parse error whatever text precedes it, including stray braces and earlier actions |
| Template.RenderField | internal/command/get.go:52-58 | a single `{{ .key }}` action renders to the key's value, and to empty text when the key is missing from the data |
| Template.RenderUnparse | internal/command/get.go:48-58 | canonical template text renders to the filling of exactly the pieces it was written from; with Template.ExecuteAppend and Template.RenderField this fixes the output piece by piece |
| Template.ExecuteAppend | internal/command/get.go:53-58 | rendering a concatenation of templates is the concatenation of the renderings |
| Get.FzfLine | internal/command/get.go:61 | the fzf options are the fixed text `fzf … --preview '`, the rendered preview verbatim, `' --preview-window down:70% ` with one `%` where the format string writes `%%`, and `--header-lines 1 --bind ` with the four key bindings, nothing more |
| Get.KubectlGet | internal/command/get.go:47 | the listing command is `kubectl get ` followed by the resource verbatim, without quoting |
| Get.CommandLine | internal/command/get.go:62 | the pipeline is the listing command, then exactly a space, a pipe character and a space, then the fzf options; when the resource has no pipe character, the first pipe character of the line is the one right after the listing command |
| Get.CommandLineInjective | internal/command/get.go:47-62 | for resources without a pipe character, the pipeline text determines both the resource and the preview |
| Text.TrimSpace | internal/command/get.go:72 | the result follows the leading whitespace in the input, only whitespace follows it, it is empty exactly when the input is all whitespace, and otherwise starts and ends with a non-space |
| Text.TrimSpaceUnique | internal/command/get.go:72 | trimming a whitespace prefix + core + whitespace suffix yields the core |
| Text.TrimSpaceIdempotent | internal/command/get.go:72 | trimming twice is trimming once |
| Text.Fields | internal/command/get.go:73 | every field is non-empty and whitespace-free; there are no fields exactly when the input is all whitespace (that the fields are all the maximal runs, in order, is stated by Text.FieldsInterleave and Text.FieldsLayout) |
| Text.FirstField | internal/command/get.go:73 | the first field is the longest whitespace-free prefix of the text after the leading whitespace |
| Text.FieldsInterleave | internal/command/get.go:73 | splitting words laid out with any non-empty whitespace between them and any whitespace before and after gives exactly those words back, in order |
| Text.FieldsLayout | internal/command/get.go:73 | conversely, every text is its leading whitespace followed by its fields, each followed by whitespace that is non-empty between two fields: nothing of the text is dropped or reordered |
| Text.FieldsOfTrimSpace | internal/command/get.go:72-73 | splitting the trimmed output gives the same fields as splitting the raw output |
| Get.SelectedName | internal/command/get.go:72-74 | for output with a non-space character, the name is non-empty, whitespace-free, a prefix of the trimmed output, and followed there by whitespace or the end |
| Get.SelectedNameIdempotent | internal/command/get.go:72-74 | extracting the name from a name returns the name |
| Get.SelectedNameOfRow | internal/command/get.go:72-74 | for a table row of whitespace-free columns padded with any runs of whitespace, as `kubectl get` prints them, the name is the first column |
| Get.Decide | internal/command/get.go:76-116 | `name` prints the name; `yaml`/`json` run `kubectl get <resource> -o <format> <name>`; `describe` runs `kubectl describe <resource> <name>`; every other format does nothing |
| Get.DecideKeepsFormat | internal/command/get.go:76-116 | the output format can be read back from the action for the four known formats, and from no action for the others |
| Get.Run | internal/command/get.go:46-118 | exit code 1 exactly when the preview or the pipeline fails, 2 exactly when the follow-up kubectl fails, 0 otherwise; an error accompanies non-zero codes only; a panic exactly when the pipeline succeeds with whitespace-only output, carrying the pipeline built from the rendered preview; the pipeline run is the one built from the rendered preview |
| Get.RunBuiltCommand | internal/command/get.go:19-70 | for a command from the constructor the preview never fails, so code 1 means exactly a pipeline failure, and the pipeline carries the describe or yaml preview chosen at construction |
| Get.RunFailureStops | internal/command/get.go:48-70 | a failed preview or pipeline ends the run at once with code 1 and the error naming that step: nothing printed, no follow-up kubectl, and no pipeline run when the preview failed |
| Get.RunFollowsDecision | internal/command/get.go:72-117 | after a successful pick, the pipeline built from the rendered preview is the one recorded as run; kubectl runs with exactly the argument vector the output format chooses for the picked name (or not at all); the name or kubectl's output is what is printed; a kubectl failure is exit code 2 carrying kubectl's combined output |
| Get.FollowUpIgnored | internal/command/get.go:76-117 | when the output format does not run kubectl again, the follow-up result has no effect |
| Get.RunPrintsName | internal/command/get.go:72-78 | with the `name` format and a successful pick, the run ends with code 0, runs no kubectl, and prints the first column and a newline |

## Left out

- Process execution and stream wiring (`exec.CommandContext`, `sh -c`, Stdin/Stderr, `CombinedOutput`, `fmt.Print*`): the results of the two processes are parameters of `Get.Run`, and printing is the `stdout` text of the outcome.
- Context cancellation: it only affects the processes, which are not run.
- Get.RenderPreview: requires the resource to contain none of NUL, `"`, `&`, `'`, `+`, `<`, `>`, because HTML escaping of inserted values by `html/template` is not modelled; for such resources the source inserts the escaped form.
- Get.Run: requires the same of the resource, for the same reason.
- Template.Render: Go's `Execute` can also fail at run time, when the contextual escaper rejects a template, e.g. one that ends inside a tag or an attribute (`<a title='{{ .resource }}`); this model renders such a template, and only parse failures are errors. The two preview templates are plain text and never reach that branch.
- Template.RenderUnparse: values are inserted verbatim, while `html/template` escapes them by context (`&` becomes `&amp;` in text, values are JSON-quoted in scripts); escaping is not modelled.
- Template.ParseUnparse: keys are ASCII letters, digits and `_` not starting with a digit; Go's lexer also accepts other Unicode letters and digits in field names, which this model treats as unsupported actions. The round trip also excludes literal text containing `{`, which Go accepts: a `{` right before an action's `{{` moves where the delimiter starts, so such text does not parse back to the same pieces.
- `html/template` beyond flat field references: control actions, pipelines, `{{-` trim markers and comments are parse errors in `Template`, while the library accepts them; the two preview templates use none of them.
- Error message texts of `Run`: its errors are modelled by kind (`RunError`); the wrapped Go errors and the exec error text are not visible here. The constructor's two messages are modelled word for word.
- Bytes: process output is modelled as a sequence of code points; invalid UTF-8 in fzf's output is not modelled.
- `getFzfOption`, `commandFromTemplate`, the `KUBECTL_FZF_*` environment overrides and their default bind constant: their code is not part of `get.go`, which is the modelled core; `commandFromTemplate`'s behaviour is close to `Template.Render`.
- Test plumbing in `TestMain` that swaps function variables.

=== FILE: get.dfy ===
/** The `get` command: constructor validation, preview rendering, the shell
    pipeline that lists resources into the fuzzy finder, and what happens with the
    line the user picked. Processes are not run here: their results are inputs. */
module Get {
  import opened Wrappers
  import opened Text
  import Template

  /** The two preview templates a command can be built with:
      `kubectl describe {{ .resource }} {{ .name }}` and
      `kubectl get {{ .resource }} {{ .name }} -o yaml`. */
  const DescribeHead: string := "kubectl describe "
  const KubectlGetHead: string := "kubectl get "
  const PreviewFields: string := "{{ .resource }} {{ .name }}"
  const YamlTail: string := " -o yaml"
  const PreviewDescribe: string := DescribeHead + PreviewFields
  const PreviewYaml: string := KubectlGetHead + PreviewFields + YamlTail

  /** What the preview's `name` field is filled with: fzf's first-column placeholder. */
  const NamePlaceholder: string := "{1}"

  datatype GetCommand = GetCommand(resource: string, previewCommand: string, outputFormat: string)

  /** The resource is checked first, then the preview format; the output format is
      kept whatever it is. A failure carries the error text. */
  function NewGetCommand(resource: string, previewFormat: string, outputFormat: string): (r: Result<GetCommand, string>)
    ensures resource == [] ==> r == Failure("1st argument must be the kind of resources")
    ensures resource != [] && previewFormat != "describe" && previewFormat != "yaml" ==> r == Failure("preview format must be one of [describe, yaml]")
    ensures r.Success? <==> resource != [] && (previewFormat == "describe" || previewFormat == "yaml")
    ensures r.Success? ==> r.value.resource == resource && r.value.outputFormat == outputFormat
    ensures r.Success? && previewFormat == "describe" ==> r.value.previewCommand == PreviewDescribe
    ensures r.Success? && previewFormat == "yaml" ==> r.value.previewCommand == PreviewYaml
  {
    if resource == [] then Failure("1st argument must be the kind of resources")
    else if previewFormat == "describe" then Success(GetCommand(resource, PreviewDescribe, outputFormat))
    else if previewFormat == "yaml" then Success(GetCommand(resource, PreviewYaml, outputFormat))
    else Failure("preview format must be one of [describe, yaml]")
  }

  /** A command the constructor can produce. */
  predicate Valid(c: GetCommand)
  {
    c.resource != [] && (c.previewCommand == PreviewDescribe || c.previewCommand == PreviewYaml)
  }

  /** The constructor produces exactly the valid commands. */
  lemma NewGetCommandValid(c: GetCommand)
    ensures Valid(c) <==> exists pf :: NewGetCommand(c.resource, pf, c.outputFormat) == Success(c)
  {
    if Valid(c) {
      var pf := if c.previewCommand == PreviewDescribe then "describe" else "yaml";
      assert NewGetCommand(c.resource, pf, c.outputFormat) == Success(c);
    }
  }

  /** No character that HTML escaping would rewrite: NUL, `"`, `&`, `'`, `+`, `<`, `>`. */
  predicate HtmlSafe(s: string)
  {
    forall i :: 0 <= i < |s| ==> s[i] !in {'\0', '"', '&', '\'', '+', '<', '>'}
  }

  function PreviewData(resource: string): map<string, string>
  {
    map["resource" := resource, "name" := NamePlaceholder]
  }

  /** The pieces of `prefix{{ .resource }} {{ .name }}suffix`. */
  function PreviewPieces(prefix: string, suffix: string): seq<Template.Piece>
  {
    Template.Lits(prefix) + [Template.Field("resource"), Template.Lit(' '), Template.Field("name")] + Template.Lits(suffix)
  }

  lemma PreviewPiecesText(prefix: string, suffix: string)
    ensures Template.Unparse(PreviewPieces(prefix, suffix)) == prefix + PreviewFields + suffix
  {
    var fields := [Template.Field("resource"), Template.Lit(' '), Template.Field("name")];
    assert PreviewPieces(prefix, suffix) == Template.Lits(prefix) + fields + Template.Lits(suffix);
    Template.UnparseAppend(Template.Lits(prefix) + fields, Template.Lits(suffix));
    Template.UnparseAppend(Template.Lits(prefix), fields);
    Template.UnparseLits(prefix);
    Template.UnparseLits(suffix);
    FieldsText();
  }

  lemma FieldsText()
    ensures Template.Unparse([Template.Field("resource"), Template.Lit(' '), Template.Field("name")]) == PreviewFields
  {
    var fields := [Template.Field("resource"), Template.Lit(' '), Template.Field("name")];
    assert fields == [fields[0]] + [fields[1]] + [fields[2]];
    Template.UnparseAppend([fields[0]] + [fields[1]], [fields[2]]);
    Template.UnparseAppend([fields[0]], [fields[1]]);
    Template.UnparseSingle(fields[0]);
    Template.UnparseSingle(fields[1]);
    Template.UnparseSingle(fields[2]);
    FieldsTextJoin();
  }

  lemma FieldsTextJoin()
    ensures "{{ ." + "resource" + " }}" + [' '] + ("{{ ." + "name" + " }}") == PreviewFields
  {
  }

  lemma PreviewPiecesFill(prefix: string, suffix: string, data: map<string, string>)
    requires "resource" in data && "name" in data
    ensures Template.Execute(PreviewPieces(prefix, suffix), data) == prefix + data["resource"] + " " + data["name"] + suffix
  {
    var fields := [Template.Field("resource"), Template.Lit(' '), Template.Field("name")];
    Template.ExecuteAppend(Template.Lits(prefix) + fields, Template.Lits(suffix), data);
    Template.ExecuteAppend(Template.Lits(prefix), fields, data);
    Template.ExecuteLits(prefix, data);
    Template.ExecuteLits(suffix, data);
    ExecuteFields(data);
  }

  lemma ExecuteFields(data: map<string, string>)
    requires "resource" in data && "name" in data
    ensures Template.Execute([Template.Field("resource"), Template.Lit(' '), Template.Field("name")], data)
         == data["resource"] + " " + data["name"]
  {
    var fields := [Template.Field("resource"), Template.Lit(' '), Template.Field("name")];
    assert Template.Execute(fields[2..], data) == data["name"];
    assert Template.Execute(fields[1..], data) == " " + data["name"];
  }

  /** A preview template parses, and fills in the resource and fzf's `{1}`. */
  lemma TemplateRenders(prefix: string, suffix: string, resource: string)
    requires forall i :: 0 <= i < |prefix| ==> prefix[i] != '{'
    requires forall i :: 0 <= i < |suffix| ==> suffix[i] != '{'
    ensures Template.Render(prefix + PreviewFields + suffix, PreviewData(resource))
         == Success(prefix + resource + " {1}" + suffix)
  {
    var data := PreviewData(resource);
    var ps := PreviewPieces(prefix, suffix);
    assert Template.IsKey("resource") && Template.IsKey("name");
    assert Template.WellFormed(ps) by {
      forall i | 0 <= i < |ps|
        ensures match ps[i] case Lit(c) => c != '{' case Field(k) => Template.IsKey(k)
      {
        if i >= |prefix| + 3 {
          assert ps[i] == Template.Lit(suffix[i - |prefix| - 3]);
        }
      }
    }
    PreviewPiecesText(prefix, suffix);
    PreviewPiecesFill(prefix, suffix, data);
    Template.RenderUnparse(ps, data);
    assert data["resource"] == resource && data["name"] == "{1}";
    JoinPreview(prefix, resource, suffix);
  }

  lemma JoinPreview(prefix: string, resource: string, suffix: string)
    ensures prefix + resource + " " + "{1}" + suffix == prefix + resource + " {1}" + suffix
  {
    assert " " + "{1}" == " {1}";
  }

  /** The literal text around the fields holds no `{`. */
  lemma NoBrace()
    ensures forall i :: 0 <= i < |DescribeHead| ==> DescribeHead[i] != '{'
    ensures forall i :: 0 <= i < |KubectlGetHead| ==> KubectlGetHead[i] != '{'
    ensures forall i :: 0 <= i < |YamlTail| ==> YamlTail[i] != '{'
  {
  }

  lemma DescribeRenders(resource: string)
    ensures Template.Render(PreviewDescribe, PreviewData(resource)) == Success(DescribeHead + resource + " {1}")
  {
    NoBrace();
    TemplateRenders(DescribeHead, "", resource);
    assert PreviewDescribe == DescribeHead + PreviewFields + "";
    assert DescribeHead + resource + " {1}" + "" == DescribeHead + resource + " {1}";
  }

  lemma YamlRenders(resource: string)
    ensures Template.Render(PreviewYaml, PreviewData(resource)) == Success(KubectlGetHead + resource + " {1}" + YamlTail)
  {
    NoBrace();
    TemplateRenders(KubectlGetHead, YamlTail, resource);
  }

  /** Render the command's preview template with the resource and fzf's `{1}`.
      HTML escaping is not modelled, so the resource must not need any. */
  function RenderPreview(c: GetCommand): (r: Result<string, Template.ParseError>)
    requires HtmlSafe(c.resource)
    ensures c.previewCommand == PreviewDescribe ==> r == Success(DescribeHead + c.resource + " {1}")
    ensures c.previewCommand == PreviewYaml ==> r == Success(KubectlGetHead + c.resource + " {1}" + YamlTail)
  {
    DescribeRenders(c.resource);
    YamlRenders(c.resource);
    Template.Render(c.previewCommand, PreviewData(c.resource))
  }

  /** The command that lists the resources: the resource goes in verbatim, with
      no quoting. */
  function KubectlGet(resource: string): (r: string)
    ensures |r| == |KubectlGetHead| + |resource|
    ensures r[..|KubectlGetHead|] == "kubectl get " && r[|KubectlGetHead|..] == resource
  {
    KubectlGetHead + resource
  }

  /** The fzf options, a fixed format string with the preview in it: the text
      before the preview, the window option right after it (the format string's
      `%%` is one `%` here), and the header and key-binding options. */
  const FzfHead: string := "fzf --inline-info --layout reverse --preview '"
  const FzfWindow: string := "' --preview-window down:70% "
  const FzfTail: string := "--header-lines 1 --bind ctrl-k:kill-line,ctrl-alt-n:preview-down,ctrl-alt-p:preview-up,ctrl-alt-v:preview-page-down"

  /** The fzf invocation: the rendered preview goes verbatim between the single
      quotes, and the fixed options surround it unchanged. */
  function FzfLine(preview: string): (f: string)
    ensures var e := |FzfHead| + |preview|;
      && |f| == e + |FzfWindow| + |FzfTail|
      && f[..|FzfHead|] == FzfHead
      && f[|FzfHead|..e] == preview
      && f[e..e + |FzfWindow|] == FzfWindow
      && f[e + |FzfWindow|..] == FzfTail
  {
    var f := FzfHead + preview + FzfWindow + FzfTail;
    SliceParts(FzfHead, preview, FzfWindow, FzfTail);
    f
  }

  lemma SliceParts(h: string, p: string, w: string, t: string)
    ensures var f := h + p + w + t;
      var e := |h| + |p|;
      && |f| == e + |w| + |t|
      && f[..|h|] == h && f[|h|..e] == p && f[e..e + |w|] == w && f[e + |w|..] == t
  {
    var f := h + p + w + t;
    var e := |h| + |p|;
    assert f[e + |w|..] == t;
  }

  /** What joins the two commands; its `|` is at offset 1. */
  const PipeSep: string := " | "

  /** The pipeline handed to `sh -c`: list the resources and pick one with fzf.
      When the resource has no `|`, the first `|` of the line is the pipe. */
  function CommandLine(resource: string, preview: string): (r: string)
    ensures var k := |KubectlGet(resource)|;
      && |r| == k + |PipeSep| + |FzfLine(preview)|
      && r[..k] == KubectlGet(resource)
      && r[k..k + |PipeSep|] == PipeSep
      && r[k + |PipeSep|..] == FzfLine(preview)
    ensures '|' !in resource ==>
      var k := |KubectlGet(resource)| + 1;
      k < |r| && r[k] == '|' && forall i :: 0 <= i < k ==> r[i] != '|'
  {
    var r := KubectlGet(resource) + PipeSep + FzfLine(preview);
    ThreeParts(KubectlGet(resource), PipeSep, FzfLine(preview));
    assert '|' !in KubectlGetHead;
    FirstBar(KubectlGetHead, resource, FzfLine(preview));
    r
  }

  lemma ThreeParts(h: string, m: string, t: string)
    ensures var r := h + m + t;
      |r| == |h| + |m| + |t| && r[..|h|] == h && r[|h|..|h| + |m|] == m && r[|h| + |m|..] == t
  {
    var r := h + m + t;
    assert r[..|h|] == h;
    assert r[|h|..|h| + |m|] == m;
    assert r[|h| + |m|..] == t;
  }

  /** The pipe that follows a head and a resource without `|` is the first `|`. */
  lemma FirstBar(head: string, resource: string, rest: string)
    ensures '|' !in head && '|' !in resource ==>
      var r := head + resource + PipeSep + rest;
      var k := |head| + |resource| + 1;
      k < |r| && r[k] == '|' && forall i :: 0 <= i < k ==> r[i] != '|'
  {
    if '|' !in head && '|' !in resource {
      var r := head + resource + PipeSep + rest;
      var k := |head| + |resource| + 1;
      assert PipeSep[0] == ' ' && PipeSep[1] == '|';
      forall i | 0 <= i < k
        ensures r[i] != '|'
      {
        if i < |head| {
          assert r[i] == head[i];
        } else if i < |head| + |resource| {
          assert r[i] == resource[i - |head|];
        } else {
          assert r[i] == PipeSep[0];
        }
      }
      assert r[k] == PipeSep[1];
    }
  }

  /** With resources free of `|`, the pipeline text determines the resource and
      the preview: the first `|` ends the resource, and the preview fills what
      the fixed text around it leaves. */
  lemma CommandLineInjective(r1: string, p1: string, r2: string, p2: string)
    requires '|' !in r1 && '|' !in r2
    requires CommandLine(r1, p1) == CommandLine(r2, p2)
    ensures r1 == r2 && p1 == p2
  {
    var line := CommandLine(r1, p1);
    assert |r1| == |r2|;
    var k := |KubectlGet(r1)|;
    assert KubectlGet(r1) == KubectlGet(r2);
    assert r1 == KubectlGet(r1)[|KubectlGetHead|..];
    var f1 := FzfLine(p1);
    var f2 := FzfLine(p2);
    assert f1 == line[k + |PipeSep|..] == f2;
    assert |p1| == |p2|;
  }

  /** The picked resource's name: the first column of fzf's output line.
      get.go indexes `columns[0]` without a check, so at least one non-space
      character is required here; `Run` turns whitespace-only output into a panic. */
  function SelectedName(out: string): (name: string)
    requires !AllSpace(out)
    ensures name != [] && NoSpace(name)
    ensures var line := TrimSpace(out);
      |name| <= |line| && line[..|name|] == name && (|name| == |line| || IsSpace(line[|name|]))
  {
    var line := TrimSpace(out);
    LeadingSpaceUnique(line, 0);
    assert line[0..] == line;
    FirstField(line);
    var column := Fields(line)[0];
    TrimSpaceNoSpace(column);
    TrimSpace(column)
  }

  /** A name is its own first column. */
  lemma SelectedNameIdempotent(out: string)
    requires !AllSpace(out)
    ensures !AllSpace(SelectedName(out))
    ensures SelectedName(SelectedName(out)) == SelectedName(out)
  {
    var name := SelectedName(out);
    assert !IsSpace(name[0]);
    TrimSpaceNoSpace(name);
    WordThenSpace(name, []);
    assert name + [] == name;
  }

  /** For a table row of whitespace-free columns, with any run of whitespace
      before, between and after them, the name is the first column. */
  lemma SelectedNameOfRow(a: string, columns: seq<string>, seps: seq<string>)
    requires AllSpace(a) && Separated(columns, seps)
    requires |columns| > 0
    ensures !AllSpace(a + Interleave(columns, seps))
    ensures SelectedName(a + Interleave(columns, seps)) == columns[0]
  {
    var out := a + Interleave(columns, seps);
    FieldsInterleave(a, columns, seps);
    FieldsOfTrimSpace(out);
    TrimSpaceNoSpace(columns[0]);
  }

  /** What is done with the picked name. */
  datatype Action =
    | PrintName(name: string)         // print it on a line of its own
    | RunKubectl(args: seq<string>)   // run kubectl with these arguments and print its output
    | NoAction                        // an output format that is not recognised

  /** The output format chooses the action. */
  function Decide(outputFormat: string, resource: string, name: string): (a: Action)
    ensures a.PrintName? <==> outputFormat == "name"
    ensures a.NoAction? <==> outputFormat !in {"name", "yaml", "json", "describe"}
    ensures a.PrintName? ==> a.name == name
    ensures a.RunKubectl? ==> |a.args| >= 3 && a.args[1] == resource && a.args[|a.args| - 1] == name
    ensures outputFormat == "yaml" || outputFormat == "json" ==> a == RunKubectl(["get", resource, "-o", outputFormat, name])
    ensures outputFormat == "describe" ==> a == RunKubectl(["describe", resource, name])
  {
    match outputFormat
    case "name" => PrintName(name)
    case "yaml" => RunKubectl(["get", resource, "-o", "yaml", name])
    case "json" => RunKubectl(["get", resource, "-o", "json", name])
    case "describe" => RunKubectl(["describe", resource, name])
    case _ => NoAction
  }

  /** The output format an action stands for, read back from the action. */
  function FormatOf(a: Action): Option<string>
  {
    match a
    case PrintName(_) => Some("name")
    case RunKubectl(args) =>
      if |args| == 5 && args[0] == "get" && args[2] == "-o" then Some(args[3])
      else if |args| == 3 && args[0] == "describe" then Some("describe")
      else None
    case NoAction => None
  }

  /** The action keeps the output format: it can be read back from it. */
  lemma DecideKeepsFormat(outputFormat: string, resource: string, name: string)
    ensures outputFormat in {"name", "yaml", "json", "describe"} ==> FormatOf(Decide(outputFormat, resource, name)) == Some(outputFormat)
    ensures outputFormat !in {"name", "yaml", "json", "describe"} ==> FormatOf(Decide(outputFormat, resource, name)) == None
  {
  }

  /** How a process ended: its output, and whether it reported an error. */
  datatype ProcResult = ProcResult(output: string, failed: bool)

  datatype RunError =
    | PreviewFailed(cause: Template.ParseError) // the preview template did not parse
    | GetFailed                                 // the kubectl | fzf pipeline failed
    | OutputFailed(output: string)              // the follow-up kubectl failed; its combined output

  /** How `Run` ends: with an exit code, an optional error, the pipeline it ran,
      the kubectl arguments it ran, and what it printed; or with a panic when
      fzf printed only whitespace. */
  datatype Outcome =
    | Exit(code: nat, err: Option<RunError>, shell: Option<string>, kubectl: Option<seq<string>>, stdout: string)
    | Panic(pipelineLine: string)

  /** The exit code that goes with an error. */
  function ExitCode(e: RunError): nat
  {
    match e
    case PreviewFailed(_) => 1
    case GetFailed => 1
    case OutputFailed(_) => 2
  }

  /** Run the command, given how the pipeline ended and how the follow-up kubectl
      would end; the follow-up result is used only when kubectl is run again. */
  function Run(c: GetCommand, pipeline: ProcResult, followUp: ProcResult): (r: Outcome)
    requires HtmlSafe(c.resource)
    ensures r.Exit? ==> r.code <= 2 && (r.code == 0 <==> r.err.None?)
    ensures r.Exit? && r.err.Some? ==> r.code == ExitCode(r.err.value)
    ensures (r.Exit? && r.code == 1) <==> (RenderPreview(c).Failure? || pipeline.failed)
    ensures r.Panic? <==> RenderPreview(c).Success? && !pipeline.failed && AllSpace(pipeline.output)
    ensures r.Panic? ==> RenderPreview(c).Success? && r.pipelineLine == CommandLine(c.resource, RenderPreview(c).value)
    ensures (r.Exit? && r.code == 2) <==>
      && RenderPreview(c).Success? && !pipeline.failed && !AllSpace(pipeline.output)
      && Decide(c.outputFormat, c.resource, SelectedName(pipeline.output)).RunKubectl?
      && followUp.failed
    ensures r.Exit? && r.kubectl.Some? ==> r.shell.Some? && |r.kubectl.value| >= 3 && r.kubectl.value[1] == c.resource
    ensures r.Exit? && r.shell.Some? ==> RenderPreview(c).Success? && r.shell == Some(CommandLine(c.resource, RenderPreview(c).value))
  {
    match RenderPreview(c)
    case Failure(e) => Exit(1, Some(PreviewFailed(e)), None, None, [])
    case Success(preview) =>
      var line := CommandLine(c.resource, preview);
      if pipeline.failed then Exit(1, Some(GetFailed), Some(line), None, [])
      else if AllSpace(pipeline.output) then Panic(line)
      else
        var name := SelectedName(pipeline.output);
        match Decide(c.outputFormat, c.resource, name)
        case PrintName(n) => Exit(0, None, Some(line), None, n + "\n")
        case NoAction => Exit(0, None, Some(line), None, [])
        case RunKubectl(args) =>
          if followUp.failed then Exit(2, Some(OutputFailed(followUp.output)), Some(line), Some(args), [])
          else Exit(0, None, Some(line), Some(args), followUp.output)
  }

  /** For a command the constructor built, the preview always renders, so exit
      code 1 means exactly that the pipeline failed, and the pipeline run is the
      one with the preview for the chosen format. */
  lemma RunBuiltCommand(resource: string, previewFormat: string, outputFormat: string, pipeline: ProcResult, followUp: ProcResult)
    requires NewGetCommand(resource, previewFormat, outputFormat).Success?
    requires HtmlSafe(resource)
    ensures var r := Run(NewGetCommand(resource, previewFormat, outputFormat).value, pipeline, followUp);
      && (r.Exit? && r.err.Some? ==> !r.err.value.PreviewFailed?)
      && ((r.Exit? && r.code == 1) <==> pipeline.failed)
      && (r.Exit? ==> r.shell.Some?)
      && (r.Exit? && previewFormat == "describe" ==> r.shell == Some(CommandLine(resource, DescribeHead + resource + " {1}")))
      && (r.Exit? && previewFormat == "yaml" ==> r.shell == Some(CommandLine(resource, KubectlGetHead + resource + " {1}" + YamlTail)))
  {
  }

  /** A failed preview or a failed pipeline ends the run at once with code 1:
      nothing is printed, kubectl is not run again, and the error says which
      step failed. */
  lemma RunFailureStops(c: GetCommand, pipeline: ProcResult, followUp: ProcResult)
    requires HtmlSafe(c.resource)
    requires RenderPreview(c).Failure? || pipeline.failed
    ensures var r := Run(c, pipeline, followUp);
      && r.Exit? && r.code == 1 && r.kubectl.None? && r.stdout == []
      && r.err == Some(if RenderPreview(c).Failure? then PreviewFailed(RenderPreview(c).error) else GetFailed)
      && (r.shell.Some? <==> RenderPreview(c).Success?)
  {
  }

  /** After a successful pick, the outcome is the action the output format chose
      for the picked name: kubectl runs with exactly the action's arguments, its
      output is printed, and its failure is exit code 2 carrying that output. */
  lemma RunFollowsDecision(c: GetCommand, pipeline: ProcResult, followUp: ProcResult)
    requires HtmlSafe(c.resource)
    requires RenderPreview(c).Success? && !pipeline.failed && !AllSpace(pipeline.output)
    ensures var a := Decide(c.outputFormat, c.resource, SelectedName(pipeline.output));
      var r := Run(c, pipeline, followUp);
      && r.Exit?
      && r.shell == Some(CommandLine(c.resource, RenderPreview(c).value))
      && r.kubectl == (if a.RunKubectl? then Some(a.args) else None)
      && (a.PrintName? ==> r.code == 0 && r.stdout == a.name + "\n")
      && (a.NoAction? ==> r.code == 0 && r.stdout == [])
      && (a.RunKubectl? && !followUp.failed ==> r.code == 0 && r.stdout == followUp.output)
      && (a.RunKubectl? && followUp.failed ==> r.code == 2 && r.err == Some(OutputFailed(followUp.output)) && r.stdout == [])
  {
  }

  /** The follow-up result matters only when the output format runs kubectl again. */
  lemma FollowUpIgnored(c: GetCommand, pipeline: ProcResult, f1: ProcResult, f2: ProcResult)
    requires HtmlSafe(c.resource)
    requires c.outputFormat !in {"yaml", "json", "describe"}
    ensures Run(c, pipeline, f1) == Run(c, pipeline, f2)
  {
  }

  /** A successful pick with the `name` format prints the first column and
      nothing else runs. */
  lemma RunPrintsName(c: GetCommand, pipeline: ProcResult, followUp: ProcResult)
    requires HtmlSafe(c.resource) && Valid(c)
    requires c.outputFormat == "name" && !pipeline.failed && !AllSpace(pipeline.output)
    ensures Run(c, pipeline, followUp) == Exit(0, None, Some(CommandLine(c.resource, RenderPreview(c).value)), None, SelectedName(pipeline.output) + "\n")
  {
  }
}

=== FILE: template.dfy ===
/** The part of Go's `html/template` that the preview commands use: literal text
    and `{{ .key }}` actions that look a key up in a string map. Parsing is done
    once, left to right; an action that is never closed, or whose body is not a
    single field reference, is a parse error. Values are inserted verbatim: the
    library's contextual HTML escaping, and the errors its escaper raises when
    executing, are not part of this module. */
module Template {
  import opened Wrappers

  /** One parsed unit: a literal character, or a field reference `{{ .key }}`. */
  datatype Piece = Lit(c: char) | Field(key: string)

  datatype ParseError =
    | UnclosedAction                  // a `{{` with no `}}` after it
    | UnsupportedAction(body: string) // an action body that is not ` .key `

  predicate IsKeyChar(c: char)
  {
    'a' <= c <= 'z' || 'A' <= c <= 'Z' || '0' <= c <= '9' || c == '_'
  }

  /** A field name: ASCII letters, digits and `_`, not starting with a digit (the
      lexer reads `.1` as a number). */
  predicate IsKey(k: string)
  {
    |k| > 0 && !('0' <= k[0] <= '9') && forall i :: 0 <= i < |k| ==> IsKeyChar(k[i])
  }

  /** The spaces the template lexer skips inside an action. */
  predicate IsLexSpace(c: char)
  {
    c == ' ' || c == '\t' || c == '\r' || c == '\n'
  }

  /** A right delimiter `}}` starts at index k. */
  predicate CloseAt(s: string, k: int)
  {
    0 <= k && k + 1 < |s| && s[k] == '}' && s[k + 1] == '}'
  }

  /** The first right delimiter at or after index i. */
  function FindClose(s: string, i: nat): (r: Option<nat>)
    requires i <= |s|
    ensures r.Some? ==> i <= r.value && CloseAt(s, r.value)
    ensures r.Some? ==> forall k :: i <= k < r.value ==> !CloseAt(s, k)
    ensures r.None? ==> forall k :: i <= k ==> !CloseAt(s, k)
    decreases |s| - i
  {
    if i + 2 > |s| then None
    else if CloseAt(s, i) then Some(i)
    else FindClose(s, i + 1)
  }

  function TrimLexLeft(s: string): string
  {
    if |s| > 0 && IsLexSpace(s[0]) then TrimLexLeft(s[1..]) else s
  }

  function TrimLexRight(s: string): string
  {
    if |s| > 0 && IsLexSpace(s[|s| - 1]) then TrimLexRight(s[..|s| - 1]) else s
  }

  /** The key named by an action body such as ` .name `, if the body is one. */
  function ActionKey(body: string): (r: Option<string>)
    ensures r.Some? ==> IsKey(r.value)
  {
    var b := TrimLexRight(TrimLexLeft(body));
    if |b| >= 2 && b[0] == '.' && IsKey(b[1..]) then Some(b[1..]) else None
  }

  /** Every field of a parsed template names a well-formed key. */
  predicate KeysValid(ps: seq<Piece>)
  {
    forall i :: 0 <= i < |ps| ==> ps[i].Field? ==> IsKey(ps[i].key)
  }

  /** Put `ps` in front of a successful parse; a failure passes through. */
  function Prefixed(ps: seq<Piece>, r: Result<seq<Piece>, ParseError>): Result<seq<Piece>, ParseError>
  {
    match r
    case Failure(e) => Failure(e)
    case Success(q) => Success(ps + q)
  }

  /** Parse a template body into pieces, failing at the first malformed action. */
  function Parse(s: string): (r: Result<seq<Piece>, ParseError>)
    ensures r.Success? ==> KeysValid(r.value)
    decreases |s|
  {
    if s == [] then Success([])
    else if |s| >= 2 && s[0] == '{' && s[1] == '{' then
      match FindClose(s, 2)
      case None => Failure(UnclosedAction)
      case Some(k) =>
        match ActionKey(s[2..k])
        case None => Failure(UnsupportedAction(s[2..k]))
        case Some(key) => Prefixed([Field(key)], Parse(s[k + 2..]))
    else
      Prefixed([Lit(s[0])], Parse(s[1..]))
  }

  /** The canonical text of a piece. */
  function PieceText(p: Piece): string
  {
    match p
    case Lit(c) => [c]
    case Field(k) => "{{ ." + k + " }}"
  }

  /** The canonical template text of a sequence of pieces. */
  function Unparse(ps: seq<Piece>): string
  {
    if ps == [] then [] else PieceText(ps[0]) + Unparse(ps[1..])
  }

  /** Pieces whose canonical text parses back to them: no literal `{`, valid keys. */
  predicate WellFormed(ps: seq<Piece>)
  {
    forall i :: 0 <= i < |ps| ==>
      match ps[i]
      case Lit(c) => c != '{'
      case Field(k) => IsKey(k)
  }

  /** Fill in the pieces; a key missing from the data renders as empty text.
      Literal text comes out as it was written. */
  function Execute(ps: seq<Piece>, data: map<string, string>): (r: string)
    ensures (forall i :: 0 <= i < |ps| ==> ps[i].Lit?) ==> r == Unparse(ps)
  {
    if ps == [] then []
    else
      var head := match ps[0]
        case Lit(c) => [c]
        case Field(k) => if k in data then data[k] else [];
      head + Execute(ps[1..], data)
  }

  /** Parse the template text, then fill it in. */
  function Render(tmpl: string, data: map<string, string>): (r: Result<string, ParseError>)
    ensures r.Failure? <==> Parse(tmpl).Failure?
  {
    match Parse(tmpl)
    case Failure(e) => Failure(e)
    case Success(ps) => Success(Execute(ps, data))
  }

  /** The literal pieces spelling out `s`. */
  function Lits(s: string): (ps: seq<Piece>)
    ensures |ps| == |s|
    ensures forall i :: 0 <= i < |s| ==> ps[i] == Lit(s[i])
  {
    seq(|s|, i requires 0 <= i < |s| => Lit(s[i]))
  }

  lemma {:induction false} UnparseAppend(a: seq<Piece>, b: seq<Piece>)
    ensures Unparse(a + b) == Unparse(a) + Unparse(b)
  {
    if a == [] {
      assert a + b == b;
    } else {
      assert (a + b)[0] == a[0];
      assert (a + b)[1..] == a[1..] + b;
      UnparseAppend(a[1..], b);
    }
  }

  lemma UnparseSingle(p: Piece)
    ensures Unparse([p]) == PieceText(p)
  {
    assert [p][1..] == [];
  }

  lemma {:induction false} ExecuteAppend(a: seq<Piece>, b: seq<Piece>, data: map<string, string>)
    ensures Execute(a + b, data) == Execute(a, data) + Execute(b, data)
  {
    if a == [] {
      assert a + b == b;
    } else {
      assert (a + b)[0] == a[0];
      assert (a + b)[1..] == a[1..] + b;
      ExecuteAppend(a[1..], b, data);
    }
  }

  lemma {:induction false} UnparseLits(s: string)
    ensures Unparse(Lits(s)) == s
  {
    if s != [] {
      assert Lits(s)[1..] == Lits(s[1..]);
      UnparseLits(s[1..]);
    }
  }

  lemma {:induction false} ExecuteLits(s: string, data: map<string, string>)
    ensures Execute(Lits(s), data) == s
  {
    if s != [] {
      assert Lits(s)[1..] == Lits(s[1..]);
      ExecuteLits(s[1..], data);
    }
  }

  lemma ActionKeyCanonical(k: string)
    requires IsKey(k)
    ensures ActionKey(" ." + k + " ") == Some(k)
  {
    var body := " ." + k + " ";
    assert body[1..] == "." + k + " ";
    assert TrimLexLeft(body) == "." + k + " ";
    var b := "." + k + " ";
    assert b[..|b| - 1] == "." + k;
    assert !IsLexSpace(k[|k| - 1]);
    assert TrimLexRight(b) == "." + k;
    assert ("." + k)[1..] == k;
  }

  /** A literal other than `{` is taken as is, and parsing goes on after it. */
  lemma ParseLit(c: char, u: string)
    requires c != '{'
    ensures Parse([c] + u) == Prefixed([Lit(c)], Parse(u))
  {
    assert ([c] + u)[1..] == u;
  }

  /** A canonical action is recognised as its field, and parsing goes on after it. */
  lemma ParseField(k: string, u: string)
    requires IsKey(k)
    ensures Parse("{{ ." + k + " }}" + u) == Prefixed([Field(k)], Parse(u))
  {
    var s := "{{ ." + k + " }}" + u;
    var close := |k| + 5;
    assert s[close] == '}' && s[close + 1] == '}';
    forall j | 2 <= j < close
      ensures !CloseAt(s, j)
    {
      if 4 <= j < 4 + |k| {
        assert s[j] == k[j - 4];
      }
    }
    FindCloseFirst(s, 2, close);
    assert s[2..close] == " ." + k + " ";
    ActionKeyCanonical(k);
    assert s[close + 2..] == u;
  }

  lemma ParsePiece(p: Piece, u: string)
    requires p.Lit? ==> p.c != '{'
    requires p.Field? ==> IsKey(p.key)
    ensures Parse(PieceText(p) + u) == Prefixed([p], Parse(u))
  {
    match p {
      case Lit(c) => ParseLit(c, u);
      case Field(k) => ParseField(k, u);
    }
  }

  lemma PrefixedAppend(a: seq<Piece>, b: seq<Piece>, r: Result<seq<Piece>, ParseError>)
    ensures Prefixed(a, Prefixed(b, r)) == Prefixed(a + b, r)
  {
    if r.Success? {
      assert a + (b + r.value) == (a + b) + r.value;
    }
  }

  /** One piece more in front of canonical text: parsing gets that piece more. */
  lemma ParseConsStep(p: Piece, rest: seq<Piece>, x: string)
    requires p.Lit? ==> p.c != '{'
    requires p.Field? ==> IsKey(p.key)
    requires Parse(Unparse(rest) + x) == Prefixed(rest, Parse(x))
    ensures Parse(Unparse([p] + rest) + x) == Prefixed([p] + rest, Parse(x))
  {
    UnparseCons(p, rest, x);
    ParsePiece(p, Unparse(rest) + x);
    PrefixedAppend([p], rest, Parse(x));
  }

  lemma UnparseCons(p: Piece, rest: seq<Piece>, x: string)
    ensures Unparse([p] + rest) + x == PieceText(p) + (Unparse(rest) + x)
  {
    var ps := [p] + rest;
    assert ps[0] == p && ps[1..] == rest;
  }

  /** Parsing canonical text followed by anything parses the pieces, then the rest. */
  lemma {:induction false} ParseUnparseAppend(ps: seq<Piece>, x: string)
    requires WellFormed(ps)
    ensures Parse(Unparse(ps) + x) == Prefixed(ps, Parse(x))
  {
    if ps == [] {
      assert Unparse(ps) + x == x;
      assert Prefixed(ps, Parse(x)) == Parse(x) by {
        if Parse(x).Success? {
          assert [] + Parse(x).value == Parse(x).value;
        }
      }
    } else {
      assert WellFormed(ps[1..]);
      assert ps[0].Lit? ==> ps[0].c != '{';
      ParseUnparseAppend(ps[1..], x);
      ParseConsStep(ps[0], ps[1..], x);
      assert [ps[0]] + ps[1..] == ps;
    }
  }

  lemma {:induction false} FindCloseFirst(s: string, i: nat, k: nat)
    requires i <= k && CloseAt(s, k)
    requires forall j :: i <= j < k ==> !CloseAt(s, j)
    ensures FindClose(s, i) == Some(k)
    decreases k - i
  {
    if i < k {
      FindCloseFirst(s, i + 1, k);
    }
  }

  /** Canonical text parses back to the pieces it came from. */
  lemma ParseUnparse(ps: seq<Piece>)
    requires WellFormed(ps)
    ensures Parse(Unparse(ps)) == Success(ps)
  {
    ParseUnparseAppend(ps, []);
    assert Unparse(ps) + [] == Unparse(ps);
    assert ps + [] == ps;
  }

  /** An action opened after well-formed text and never closed is a parse error,
      so nothing is rendered. */
  lemma ParseUnclosed(ps: seq<Piece>, t: string)
    requires WellFormed(ps)
    requires forall j :: 0 <= j ==> !CloseAt(t, j)
    ensures Parse(Unparse(ps) + "{{" + t) == Failure(UnclosedAction)
    ensures Render(Unparse(ps) + "{{" + t, map[]) == Failure(UnclosedAction)
  {
    var x := "{{" + t;
    forall j | 2 <= j
      ensures !CloseAt(x, j)
    {
      assert !CloseAt(t, j - 2);
      if j + 1 < |x| {
        assert x[j] == t[j - 2] && x[j + 1] == t[j - 1];
      }
    }
    assert FindClose(x, 2).None?;
    ParseUnparseAppend(ps, x);
    assert Unparse(ps) + "{{" + t == Unparse(ps) + x;
  }

  /** Past the end of `p`, the text `p + "{{" + t` has no right delimiter when
      `t` has none: the two opening braces cannot be part of one. */
  lemma NoCloseAfter(p: string, t: string)
    requires forall j :: 0 <= j ==> !CloseAt(t, j)
    ensures forall k :: |p| <= k + 1 ==> !CloseAt(p + "{{" + t, k)
  {
    var s := p + "{{" + t;
    forall k | |p| <= k + 1
      ensures !CloseAt(s, k)
    {
      if 0 <= k && k + 1 < |s| {
        if k >= |p| + 2 {
          assert s[k] == t[k - |p| - 2] && s[k + 1] == t[k - |p| - 1];
          assert !CloseAt(t, k - |p| - 2);
        } else if k >= |p| {
          assert s[k] == '{';
        } else {
          assert s[k + 1] == '{';
        }
      }
    }
  }

  /** An action opened and never closed is a parse error whatever text precedes
      it: any action opened earlier must close before it, and a literal `{` just
      before it only moves where the unclosed action starts. */
  lemma {:induction false} ParseUnclosedAny(p: string, t: string)
    requires forall j :: 0 <= j ==> !CloseAt(t, j)
    ensures Parse(p + "{{" + t).Failure?
    decreases |p|
  {
    var s := p + "{{" + t;
    if p == [] {
      ParseUnclosed([], t);
      assert Unparse([]) + "{{" + t == s;
    } else if s[0] == '{' && s[1] == '{' {
      NoCloseAfter(p, t);
      match FindClose(s, 2) {
        case None =>
        case Some(k) =>
          assert k + 2 <= |p|;
          assert s[k + 2..] == p[k + 2..] + "{{" + t;
          ParseUnclosedAny(p[k + 2..], t);
      }
    } else {
      assert s[1..] == p[1..] + "{{" + t;
      ParseUnclosedAny(p[1..], t);
    }
  }

  /** A single action renders to its key's value, or to empty text when the key
      is missing from the data. */
  lemma RenderField(k: string, data: map<string, string>)
    requires IsKey(k)
    ensures Render("{{ ." + k + " }}", data) == Success(if k in data then data[k] else [])
  {
    var t := "{{ ." + k + " }}";
    ParseField(k, []);
    assert t + [] == t;
    assert [Field(k)] + [] == [Field(k)];
    assert Parse(t) == Success([Field(k)]);
    var v := if k in data then data[k] else [];
    assert Execute([Field(k)], data) == v + Execute([], data);
    assert v + [] == v;
  }

  /** Rendering canonical text fills in exactly the pieces. */
  lemma RenderUnparse(ps: seq<Piece>, data: map<string, string>)
    requires WellFormed(ps)
    ensures Render(Unparse(ps), data) == Success(Execute(ps, data))
  {
    ParseUnparse(ps);
  }
}

=== FILE: text.dfy ===
/** Whitespace handling as Go's `strings.TrimSpace` and `strings.Fields` do it:
    whitespace is Go's `unicode.IsSpace`, and the text is a sequence of code points. */
module Text {

  /** Go's `unicode.IsSpace`: the six ASCII spaces, NEL, NO-BREAK SPACE and the
      remaining code points with the Unicode White_Space property. */
  predicate IsSpace(c: char)
  {
    || c == ' ' || c == '\t' || c == '\n' || c == '\U{000B}' || c == '\U{000C}' || c == '\r'
    || c == '\U{0085}' || c == '\U{00A0}' || c == '\U{1680}'
    || ('\U{2000}' <= c <= '\U{200A}')
    || c == '\U{2028}' || c == '\U{2029}' || c == '\U{202F}' || c == '\U{205F}' || c == '\U{3000}'
  }

  predicate AllSpace(s: string)
  {
    forall i :: 0 <= i < |s| ==> IsSpace(s[i])
  }

  predicate NoSpace(s: string)
  {
    forall i :: 0 <= i < |s| ==> !IsSpace(s[i])
  }

  /** Length of the whitespace run that starts `s`. */
  function LeadingSpace(s: string): (n: nat)
    ensures n <= |s|
    ensures forall i :: 0 <= i < n ==> IsSpace(s[i])
    ensures n < |s| ==> !IsSpace(s[n])
  {
    if |s| == 0 || !IsSpace(s[0]) then 0 else 1 + LeadingSpace(s[1..])
  }

  /** Length of the whitespace run that ends `s`. */
  function TrailingSpace(s: string): (n: nat)
    ensures n <= |s|
    ensures forall i :: |s| - n <= i < |s| ==> IsSpace(s[i])
    ensures n < |s| ==> !IsSpace(s[|s| - n - 1])
  {
    if |s| == 0 || !IsSpace(s[|s| - 1]) then 0 else 1 + TrailingSpace(s[..|s| - 1])
  }

  /** Length of the whitespace-free run that starts `s`. */
  function WordLength(s: string): (n: nat)
    ensures n <= |s|
    ensures forall i :: 0 <= i < n ==> !IsSpace(s[i])
    ensures n < |s| ==> IsSpace(s[n])
  {
    if |s| == 0 || IsSpace(s[0]) then 0 else 1 + WordLength(s[1..])
  }

  lemma LeadingSpaceUnique(s: string, n: nat)
    requires n <= |s| && forall i :: 0 <= i < n ==> IsSpace(s[i])
    requires n < |s| ==> !IsSpace(s[n])
    ensures LeadingSpace(s) == n
  {
  }

  lemma TrailingSpaceUnique(s: string, n: nat)
    requires n <= |s| && forall i :: |s| - n <= i < |s| ==> IsSpace(s[i])
    requires n < |s| ==> !IsSpace(s[|s| - n - 1])
    ensures TrailingSpace(s) == n
  {
  }

  lemma WordLengthUnique(s: string, n: nat)
    requires n <= |s| && forall i :: 0 <= i < n ==> !IsSpace(s[i])
    requires n < |s| ==> IsSpace(s[n])
    ensures WordLength(s) == n
  {
  }

  /** Drop the leading whitespace, then the trailing whitespace of what is left. */
  function TrimCore(s: string): string
  {
    var t := s[LeadingSpace(s)..];
    t[..|t| - TrailingSpace(t)]
  }

  lemma TrimCoreInfix(s: string)
    ensures var r := TrimCore(s);
      && LeadingSpace(s) + |r| <= |s|
      && r == s[LeadingSpace(s)..LeadingSpace(s) + |r|]
      && AllSpace(s[LeadingSpace(s) + |r|..])
  {
    var L := LeadingSpace(s);
    TrailingAllSpace(s[L..]);
    InfixParts(s, L, |s[L..]| - TrailingSpace(s[L..]));
  }

  lemma InfixParts(s: string, L: nat, m: nat)
    requires L <= |s| && m <= |s| - L
    requires AllSpace(s[L..][m..])
    ensures var r := s[L..][..m];
      && L + |r| <= |s|
      && r == s[L..L + |r|]
      && AllSpace(s[L + |r|..])
  {
    SliceOfSlice(s, L, m);
  }

  lemma SliceOfSlice(s: string, i: nat, m: nat)
    requires i <= |s| && m <= |s| - i
    ensures s[i..][..m] == s[i..i + m] && s[i..][m..] == s[i + m..]
  {
  }

  lemma TrailingAllSpace(t: string)
    ensures AllSpace(t[|t| - TrailingSpace(t)..])
  {
  }

  lemma TrimCoreNonEmpty(s: string)
    requires LeadingSpace(s) < |s|
    ensures TrimCore(s) != []
  {
    var t := s[LeadingSpace(s)..];
    assert t[0] == s[LeadingSpace(s)];
  }

  lemma TrimCoreEmpty(s: string)
    ensures TrimCore(s) == [] <==> AllSpace(s)
  {
    if AllSpace(s) {
      LeadingSpaceUnique(s, |s|);
    } else if LeadingSpace(s) < |s| {
      TrimCoreNonEmpty(s);
    }
  }

  /** `strings.TrimSpace`: drop the leading whitespace, then the trailing whitespace
      of what is left. The result sits in `s` right after the leading whitespace and
      is followed only by whitespace. */
  function TrimSpace(s: string): (r: string)
    ensures LeadingSpace(s) + |r| <= |s|
    ensures r == s[LeadingSpace(s)..LeadingSpace(s) + |r|]
    ensures AllSpace(s[LeadingSpace(s) + |r|..])
    ensures r == [] <==> AllSpace(s)
    ensures r != [] ==> !IsSpace(r[0]) && !IsSpace(r[|r| - 1])
  {
    TrimCoreInfix(s);
    TrimCoreEmpty(s);
    TrimCore(s)
  }

  /** TrimSpace removes exactly the surrounding whitespace: splitting `s` into a
      whitespace prefix, a core that starts and ends with a non-space, and a
      whitespace suffix, the result is that core. */
  lemma TrimSpaceUnique(a: string, m: string, b: string)
    requires AllSpace(a) && AllSpace(b)
    requires m != [] ==> !IsSpace(m[0]) && !IsSpace(m[|m| - 1])
    ensures TrimSpace(a + m + b) == m
  {
    var s := a + m + b;
    if m == [] {
      assert s == a + b;
      assert AllSpace(s);
    } else {
      assert s[..|a|] == a;
      LeadingSpaceUnique(s, |a|);
      var t := s[|a|..];
      assert t == m + b;
      assert t[|t| - |b|..] == b;
      TrailingSpaceUnique(t, |b|);
      assert t[..|t| - |b|] == m;
    }
  }

  /** A whitespace-free text is its own trim. */
  lemma TrimSpaceNoSpace(w: string)
    requires NoSpace(w)
    ensures TrimSpace(w) == w
  {
    assert [] + w + [] == w;
    TrimSpaceUnique([], w, []);
  }

  lemma AppendAssoc(a: string, b: string, c: string)
    ensures a + b + c == a + (b + c)
  {
  }

  lemma TrimSpaceIdempotent(s: string)
    ensures TrimSpace(TrimSpace(s)) == TrimSpace(s)
  {
    var r := TrimSpace(s);
    assert [] + r + [] == r;
    TrimSpaceUnique([], r, []);
  }

  /** `strings.Fields`: the maximal whitespace-free runs of `s`, in order. */
  function Fields(s: string): (r: seq<string>)
    ensures forall i :: 0 <= i < |r| ==> r[i] != [] && NoSpace(r[i])
    ensures r == [] <==> AllSpace(s)
    decreases |s|
  {
    var lead := LeadingSpace(s);
    if lead == |s| then
      assert s[..lead] == s;
      []
    else
      var t := s[lead..];
      assert t[0] == s[lead];
      WordAtStart(t);
      var n := WordLength(t);
      var rest := Fields(t[n..]);
      WordsCons(t[..n], rest);
      [t[..n]] + rest
  }

  lemma WordsCons(w: string, ws: seq<string>)
    requires w != [] && NoSpace(w)
    requires forall i :: 0 <= i < |ws| ==> ws[i] != [] && NoSpace(ws[i])
    ensures forall i :: 0 <= i < |[w] + ws| ==> ([w] + ws)[i] != [] && NoSpace(([w] + ws)[i])
  {
    forall i | 1 <= i < |[w] + ws|
      ensures ([w] + ws)[i] == ws[i - 1]
    {
    }
  }

  /** The first field is the longest whitespace-free prefix of what follows the
      leading whitespace. */
  lemma FirstField(s: string)
    requires !AllSpace(s)
    ensures var t := s[LeadingSpace(s)..];
            var f := Fields(s)[0];
            |f| <= |t| && t[..|f|] == f && (|f| == |t| || IsSpace(t[|f|]))
  {
  }

  lemma FieldsAfterSpace(a: string, s: string)
    requires AllSpace(a)
    ensures Fields(a + s) == Fields(s)
  {
    var x := a + s;
    var L := LeadingSpace(s);
    forall i | 0 <= i < |a| + L
      ensures IsSpace(x[i])
    {
      if i < |a| {
        assert x[i] == a[i];
      } else {
        assert x[i] == s[i - |a|];
      }
    }
    LeadingSpaceUnique(x, |a| + L);
    assert x[|a| + L..] == s[L..];
  }

  /** Fields of a text that is not all whitespace: its first word, then the
      fields of what follows that word. */
  lemma FieldsStep(s: string)
    requires LeadingSpace(s) < |s|
    ensures var t := s[LeadingSpace(s)..];
      Fields(s) == [t[..WordLength(t)]] + Fields(t[WordLength(t)..])
  {
  }

  /** Trailing whitespace neither starts nor ends a word. */
  lemma WordBeforeSpace(t: string, b: string)
    requires AllSpace(b)
    ensures WordLength(t + b) == WordLength(t)
    ensures (t + b)[..WordLength(t)] == t[..WordLength(t)]
    ensures (t + b)[WordLength(t)..] == t[WordLength(t)..] + b
  {
    var n := WordLength(t);
    assert (t + b)[..n] == t[..n];
    if n == |t| && b != [] {
      assert (t + b)[n] == b[0];
    }
    WordLengthUnique(t + b, n);
  }

  lemma {:induction false} FieldsBeforeSpace(s: string, b: string)
    requires AllSpace(b)
    ensures Fields(s + b) == Fields(s)
    decreases |s|
  {
    var L := LeadingSpace(s);
    if L == |s| {
      assert s[..L] == s;
      assert AllSpace(s + b);
    } else {
      assert (s + b)[..L] == s[..L];
      LeadingSpaceUnique(s + b, L);
      var t := s[L..];
      assert (s + b)[L..] == t + b;
      WordBeforeSpace(t, b);
      var n := WordLength(t);
      FieldsBeforeSpace(t[n..], b);
      FieldsStep(s);
      FieldsStep(s + b);
    }
  }

  /** Trimming before splitting changes nothing. */
  lemma FieldsOfTrimSpace(s: string)
    ensures Fields(TrimSpace(s)) == Fields(s)
  {
    var L := LeadingSpace(s);
    var r := TrimSpace(s);
    assert s == s[..L] + (r + s[L + |r|..]);
    FieldsAfterSpace(s[..L], r + s[L + |r|..]);
    FieldsBeforeSpace(r, s[L + |r|..]);
  }

  /** Words, each followed by its separator: `ws[0] + seps[0] + ws[1] + seps[1] + …`. */
  function Interleave(ws: seq<string>, seps: seq<string>): string
    requires |ws| == |seps|
  {
    if ws == [] then [] else ws[0] + seps[0] + Interleave(ws[1..], seps[1..])
  }

  /** Words laid out as a table row: each word non-empty and whitespace-free, each
      followed by whitespace, which is non-empty between two words and may be empty
      after the last one. */
  predicate Separated(ws: seq<string>, seps: seq<string>)
  {
    && |ws| == |seps|
    && (forall i :: 0 <= i < |ws| ==> ws[i] != [] && NoSpace(ws[i]))
    && (forall i :: 0 <= i < |seps| ==> AllSpace(seps[i]))
    && (forall i :: 0 <= i < |seps| - 1 ==> seps[i] != [])
  }

  lemma SeparatedCons(w: string, g: string, ws: seq<string>, gs: seq<string>)
    requires w != [] && NoSpace(w) && AllSpace(g)
    requires Separated(ws, gs) && (ws != [] ==> g != [])
    ensures Separated([w] + ws, [g] + gs)
  {
    var ws' := [w] + ws;
    var gs' := [g] + gs;
    forall i | 1 <= i < |ws'|
      ensures ws'[i] == ws[i - 1] && gs'[i] == gs[i - 1]
    {
    }
  }

  /** A word is exactly the whitespace-free run that starts a text when whitespace
      or nothing follows it. */
  lemma WordThenSpace(w: string, rest: string)
    requires w != [] && NoSpace(w)
    requires rest != [] ==> IsSpace(rest[0])
    ensures LeadingSpace(w + rest) == 0
    ensures Fields(w + rest) == [w] + Fields(rest)
  {
    var x := w + rest;
    assert x[0] == w[0];
    LeadingSpaceUnique(x, 0);
    assert x[0..] == x;
    assert x[..|w|] == w;
    if rest != [] {
      assert x[|w|] == rest[0];
    }
    WordLengthUnique(x, |w|);
    assert x[|w|..] == rest;
    FieldsStep(x);
  }

  lemma InterleaveCons(ws: seq<string>, seps: seq<string>)
    requires |ws| == |seps| && ws != []
    ensures Interleave(ws, seps) == ws[0] + (seps[0] + Interleave(ws[1..], seps[1..]))
  {
    AppendAssoc(ws[0], seps[0], Interleave(ws[1..], seps[1..]));
  }

  lemma ConsParts(w: string, ws: seq<string>)
    ensures ([w] + ws)[0] == w && ([w] + ws)[1..] == ws
  {
  }

  /** After the first word of a row comes whitespace, or nothing at all. */
  lemma RowTail(ws: seq<string>, seps: seq<string>)
    requires Separated(ws, seps) && ws != []
    ensures Separated(ws[1..], seps[1..])
    ensures ws[0] != [] && NoSpace(ws[0])
    ensures var tail := seps[0] + Interleave(ws[1..], seps[1..]);
      tail != [] ==> IsSpace(tail[0])
  {
    var tail := seps[0] + Interleave(ws[1..], seps[1..]);
    if seps[0] == [] {
      assert |ws| == 1;
      assert tail == [];
    } else {
      assert tail[0] == seps[0][0];
    }
  }

  /** Splitting a row of words with any whitespace around and between them gives
      the words back. */
  lemma {:induction false} FieldsInterleave(a: string, ws: seq<string>, seps: seq<string>)
    requires AllSpace(a) && Separated(ws, seps)
    ensures Fields(a + Interleave(ws, seps)) == ws
    decreases |ws|
  {
    FieldsAfterSpace(a, Interleave(ws, seps));
    if ws != [] {
      RowTail(ws, seps);
      FieldsInterleave(seps[0], ws[1..], seps[1..]);
      FieldsInterleaveStep(ws, seps);
    }
  }

  lemma FieldsInterleaveStep(ws: seq<string>, seps: seq<string>)
    requires |ws| == |seps| && ws != [] && ws[0] != [] && NoSpace(ws[0])
    requires var tail := seps[0] + Interleave(ws[1..], seps[1..]);
      && (tail != [] ==> IsSpace(tail[0]))
      && Fields(tail) == ws[1..]
    ensures Fields(Interleave(ws, seps)) == ws
  {
    InterleaveCons(ws, seps);
    WordThenSpace(ws[0], seps[0] + Interleave(ws[1..], seps[1..]));
    assert [ws[0]] + ws[1..] == ws;
  }

  /** The whitespace that follows each field of `s`. */
  function Gaps(s: string): (g: seq<string>)
    ensures |g| == |Fields(s)|
    decreases |s|
  {
    var lead := LeadingSpace(s);
    if lead == |s| then []
    else
      var t := s[lead..];
      var u := t[WordLength(t)..];
      [u[..LeadingSpace(u)]] + Gaps(u)
  }

  lemma GapsStep(s: string)
    requires LeadingSpace(s) < |s|
    ensures var t := s[LeadingSpace(s)..];
      var u := t[WordLength(t)..];
      Gaps(s) == [u[..LeadingSpace(u)]] + Gaps(u)
  {
  }

  /** A text that starts with a non-space starts with a word. */
  lemma WordAtStart(t: string)
    requires t != [] && !IsSpace(t[0])
    ensures t[..WordLength(t)] != [] && NoSpace(t[..WordLength(t)])
  {
  }

  /** What follows a word is all whitespace, or starts with some. */
  lemma GapAfterWord(t: string)
    ensures var u := t[WordLength(t)..];
      && AllSpace(u[..LeadingSpace(u)])
      && (!AllSpace(u) ==> LeadingSpace(u) > 0)
  {
    var n := WordLength(t);
    var u := t[n..];
    if !AllSpace(u) {
      assert u[0] == t[n];
    }
  }

  lemma SplitAt(s: string, i: nat, j: nat)
    requires i <= |s| && j <= |s| - i
    ensures s == s[..i] + (s[i..][..j] + s[i..][j..])
  {
    assert s[i..] == s[i..][..j] + s[i..][j..];
  }

  /** Every text is its leading whitespace followed by its fields laid out with
      the gaps between them: nothing of `s` is dropped or reordered. */
  lemma {:induction false} FieldsLayout(s: string)
    ensures AllSpace(s[..LeadingSpace(s)])
    ensures Separated(Fields(s), Gaps(s))
    ensures s == s[..LeadingSpace(s)] + Interleave(Fields(s), Gaps(s))
    decreases |s|
  {
    var lead := LeadingSpace(s);
    if lead == |s| {
      assert s[..lead] == s;
      assert AllSpace(s);
    } else {
      var t := s[lead..];
      var u := t[WordLength(t)..];
      FieldsLayout(u);
      LayoutSeparated(s);
      LayoutText(s);
    }
  }

  lemma LayoutSeparated(s: string)
    requires LeadingSpace(s) < |s|
    requires var t := s[LeadingSpace(s)..];
      var u := t[WordLength(t)..];
      Separated(Fields(u), Gaps(u))
    ensures Separated(Fields(s), Gaps(s))
  {
    var lead := LeadingSpace(s);
    var t := s[lead..];
    var n := WordLength(t);
    var u := t[n..];
    FieldsStep(s);
    GapsStep(s);
    assert t[0] == s[lead];
    WordAtStart(t);
    GapAfterWord(t);
    SeparatedCons(t[..n], u[..LeadingSpace(u)], Fields(u), Gaps(u));
  }

  lemma LayoutText(s: string)
    requires LeadingSpace(s) < |s|
    requires var t := s[LeadingSpace(s)..];
      var u := t[WordLength(t)..];
      u == u[..LeadingSpace(u)] + Interleave(Fields(u), Gaps(u))
    ensures s == s[..LeadingSpace(s)] + Interleave(Fields(s), Gaps(s))
  {
    var lead := LeadingSpace(s);
    var t := s[lead..];
    var n := WordLength(t);
    var w := t[..n];
    var u := t[n..];
    var g := u[..LeadingSpace(u)];
    FieldsStep(s);
    GapsStep(s);
    SplitAt(s, lead, n);
    ConsParts(w, Fields(u));
    ConsParts(g, Gaps(u));
    InterleaveCons([w] + Fields(u), [g] + Gaps(u));
  }
}

=== FILE: wrappers.dfy ===
/** Failure-carrying datatypes used by the rest of the model. */
module Wrappers {

  /** A value that may be absent. */
  datatype Option<+T> = None | Some(value: T)

  /** The outcome of an operation that either produces a value or fails with an error. */
  datatype Result<+T, +E> = Success(value: T) | Failure(error: E)
}
